=== FILE: README.md ===
# Layer abstraction of a small autodiff toolkit, in Dafny

This project models `my_framework/layers.py`. That file is the layer core of a minimal
neural-network toolkit. It has two parts:

- **The `Layer` base class.** An attribute store records the name whenever the value is a
  `Parameter` or a `Layer`. `params()` walks those tracked names recursively and yields every
  leaf. `cleargrads()` clears the gradient of each yielded parameter. `__call__` runs
  `forward` and normalises its result to a tuple. It keeps non-owning references to the
  arguments and the results. It returns the single result, or else the tuple.
- **`Linear`, `Q_Linear` and `B_Linear`.** The three classes share one skeleton. The weight
  `W` has no data until `in_size` is known. That happens either in the constructor or on the
  first `forward`, which takes `x.shape[1]`. From then on `W` has shape
  `(in_size, out_size)`. `forward` then delegates to an external numeric operator. The
  classes differ in three things: the default of `nobias`, the operator called, and the
  `bit_size` that `Q_Linear` stores and passes along.

Modules:

- `Base` (`base.dfy`): `Option`, `Result` and the exceptions that can be raised.
- `Tensors` (`tensors.dfy`): the collaborators the code consumes.
  - An array is reduced to its shape and how it was initialised.
  - `Parameter` holds optional data and an optional gradient.
  - Call arguments are either weakly referenceable objects or primitives.
- `Calls` (`calls.dfy`): `Layer.__call__` and the base `forward`.
- `Layers` (`layers.dfy`): the layer tree.
  - The attribute dictionary, in insertion order, plus the tracked-name set.
  - `__setattr__`, `params()` and `cleargrads()`.
  - A path-based reference definition of "tracked leaf", which states what `params()`
    enumerates.
- `LinearLayers` (`linear.dfy`): the three classes.
  - The constructors, `_init_W`, `forward` and `__call__` as pure state steps.
  - Runs of calls, and each layer seen through the base class.
- `Scenarios` (`scenarios.dfy`): worked instances on small layers and concrete inputs.

Exceptions are modelled as `Err` results, not as preconditions:

- `NotImplementedError` from the base `forward`.
- `TypeError` when the number of arguments is wrong, or when a value cannot be weakly
  referenced.
- `IndexError` for an empty tuple from `forward`, or for `x.shape[1]` on a 1-D input.
- `AttributeError` for `x.shape` on a primitive, or for `cleargrad` on a value without that
  method. The model's `Other` values stand for such objects.
- `ValueError` for a negative dimension in `randn` or `zeros`.
- `ZeroDivisionError` for `1 / in_size` with `in_size == 0`.
- `ShapeMismatch` raised by the operator (an assumption; see "## Left out").

Several steps change state before they fail, and the model keeps that intermediate state:

- `forward` assigns `in_size` before `_init_W` fails.
- `__call__` writes `inputs` before referencing the outputs fails.
- `__call__` writes both parts of the record before an empty tuple raises `IndexError`.

## Notes on the code

Two facts about the code shape the model:

- **The tracked names are kept in a `set`** (`my_framework/layers.py` line 10). So the
  order in which `params()` yields items is unspecified. The model walks the attribute
  dictionary in insertion order and keeps only the tracked names. Every property below is
  stated independently of order: a one-to-one correspondence with tracked leaves, or
  multiset equality.
- **Re-assigning a tracked name never untracks it.** A name that once held a Parameter can
  later hold `None`, and it stays tracked. `params()` then yields that `None`, and
  `cleargrads()` fails with `AttributeError`. So a tracked name can hold any value. The
  invariant `Layers.Valid` states only the converse: every Parameter or Layer attribute is
  tracked.

## Model

| member | source | states |
|---|---|---|
| Calls.RefsTo | my_framework/layers.py:21-22 | one reference per object, in order, each pointing at its object; fails exactly when some object cannot be weakly referenced |
| Calls.Invoke | my_framework/layers.py:17-23 | the call succeeds iff `forward` succeeded, every argument and result is referenceable, and there is at least one result; afterwards the record holds one reference per argument and one per result; a single result is returned by itself, several as the tuple; an empty tuple raises IndexError after both parts of the record were written (the outputs as an empty list); a failing `forward`, or an argument that cannot be weakly referenced, raises with the record untouched; a result that cannot be weakly referenced raises TypeError after the new inputs were written next to the old outputs |
| Calls.InvokePreservesResults | my_framework/layers.py:19-23 | what `__call__` returns, normalised again, is exactly the tuple `forward` produced |
| Calls.InvokeOverwritesRecord | my_framework/layers.py:21-22 | after a successful call, the record does not depend on any earlier record |
| Calls.BaseForward | my_framework/layers.py:25-26 | the base `forward` always fails: NotImplementedError with exactly one argument, TypeError otherwise |
| Calls.BaseCallRaises | my_framework/layers.py:17-26 | calling a layer without its own `forward` raises and leaves the previous record in place |
| Layers.Store | my_framework/layers.py:15 | dictionary assignment: the name then maps to the value, an existing key keeps its position and every other entry, a new key is appended, and keys stay distinct |
| Layers.StoreKeepsOthers | my_framework/layers.py:15 | assigning one key leaves the lookup of every other key unchanged |
| Layers.SetAttr | my_framework/layers.py:12-15 | the name becomes tracked exactly when the value is a Parameter or a Layer, the tracked set is otherwise unchanged, and the value is stored either way |
| Layers.SetAttrKeepsOthers | my_framework/layers.py:12-15 | an attribute store changes no other attribute |
| Layers.SetAttrIdempotent | my_framework/layers.py:12-15 | storing the same value under the same name twice equals storing it once |
| Layers.TrackedOnlyGrows | my_framework/layers.py:10-15 | over any sequence of stores, the tracked set only grows; every name that ever received a Parameter or Layer stays tracked, whatever is stored later; the only names added are those |
| Layers.SetAttrValid | my_framework/layers.py:12-15 | stores keep the layer invariant: distinct keys, tracked names exist, every Parameter or Layer attribute is tracked, and so on recursively |
| Layers.SetAllNew | my_framework/layers.py:12-15 | a run of stores of new, distinct names appends one entry each in order, and tracks exactly those given a Parameter or Layer |
| Layers.Walk | my_framework/layers.py:28-34 | the enumeration never yields a Layer, and each item is reached through a tracked name of this layer |
| Layers.WalkComplete | my_framework/layers.py:28-34 | every tracked leaf of the tree, reached through tracked names, is enumerated |
| Layers.WalkSound | my_framework/layers.py:28-34 | every enumerated item is the tracked leaf its path leads to |
| Layers.WalkOnce | my_framework/layers.py:28-34 | on a valid tree, no two positions of the enumeration are the same tracked leaf |
| Layers.ParamsAreTrackedLeaves | my_framework/layers.py:28-34 | `params()` yields one item per tracked leaf slot summed over the tree, each exactly once, and never a Layer |
| Layers.ClearGrads | my_framework/layers.py:36-38 | clearing keeps the tracked set, the record, the keys and their order, and leaves every untracked attribute unchanged; a tracked sub-layer stays a sub-layer and is itself cleared the same way, so this frame holds at every level of the tree |
| Layers.ClearGradsClearsParams | my_framework/layers.py:36-38 | `cleargrads()` succeeds iff every item `params()` yields is a Parameter; it then clears the gradient of exactly those items, keeping their names, data and positions |
| Layers.ClearGradsIdempotent | my_framework/layers.py:36-38 | clearing twice equals clearing once |
| LinearLayers.InitW | my_framework/layers.py:60-63 | the weight is created iff `in_size > 0` and `out_size >= 0`, with shape `(in_size, out_size)` and scaling by `in_size`; otherwise ZeroDivisionError (zero `in_size`) or ValueError (a negative dimension) |
| LinearLayers.New | my_framework/layers.py:41-58 | the shared constructor: it fails exactly on a bad given `in_size` or a negative length for a bias it must create; `W` has data iff `in_size` was given, with shape `(in_size, out_size)`; the bias exists iff the effective `nobias` is false, and is then a zero vector of length `out_size` with no gradient |
| LinearLayers.NewLinear | my_framework/layers.py:41-58 | `Linear` has a zero bias by default |
| LinearLayers.NewQLinear | my_framework/layers.py:75-93 | `Q_Linear` keeps `bit_size` as given and has no bias by default; it then fails only on a bad given `in_size` |
| LinearLayers.NewBLinear | my_framework/layers.py:110-127 | `B_Linear` has no bias by default; it then fails only on a bad given `in_size` |
| LinearLayers.NewConsistent | my_framework/layers.py:49-58 | every constructed layer satisfies the shape invariant |
| LinearLayers.OperatorFor | my_framework/layers.py:100-107 | `forward` calls the operator of its class with `x`, `W` and `b` unchanged; `Q_Linear` also passes its `bit_size` (the other classes: lines 71 and 140) |
| LinearLayers.Forward | my_framework/layers.py:65-72 | with `W` present nothing changes; with `W` absent, `in_size := x.shape[1]` and `W` gets shape `(in_size, out_size)`; after a successful `forward`, `W` is present; a primitive input raises AttributeError and a 1-D input IndexError, both with nothing changed; a failing `_init_W` raises its own ZeroDivisionError or ValueError after `in_size` was set; `out_size`, `b` and the class never change (same body at 100-107 and 134-141) |
| LinearLayers.ForwardConsistent | my_framework/layers.py:65-70 | `forward` keeps the shape invariant |
| LinearLayers.Call | my_framework/layers.py:17-23 | `layer(x)` on the family: any other argument count is a TypeError with nothing changed; an exception from `forward`, the operator's ShapeMismatch included, propagates with `forward`'s state change kept and the record untouched, so once `W` exists a failing call changes nothing; on success `W` is present, the single result has shape (batch, `out_size`), and the record is exactly one reference to `x` and one to the result; for a 2-D input on a consistent layer, success means `in_size` equals the input's width |
| LinearLayers.InitialisedStaysFixed | my_framework/layers.py:65-70 | once `W` has data, no sequence of calls changes `W` or `in_size`; class, `out_size`, `b` and `bit_size` never change |
| LinearLayers.InitialisedAfterSuccess | my_framework/layers.py:65-70 | after any successful call in a run, `W` has data at the end of the run |
| LinearLayers.RunConsistent | my_framework/layers.py:60-70 | every state reached by a run of calls satisfies the shape invariant |
| LinearLayers.BitSizeOnEveryCall | my_framework/layers.py:100-107 | after any run of calls, `Q_Linear` still hands its construction-time `bit_size` to the quantised operator |
| LinearLayers.LaterWidthMismatch | my_framework/layers.py:65-71 | without `in_size`, the first 2-D input fixes `W` to `(width, out_size)`; a later input of another width fails in the operator with ShapeMismatch |
| LinearLayers.AsLayerShape | my_framework/layers.py:42-58 | the constructor's attribute stores build the dictionary in order (as it stands before any call, and without the `_params` entry), and track `W` always and `b` exactly when the bias exists |
| LinearLayers.AsLayerTracksWeights | my_framework/layers.py:49-58 | seen through the base class, the layer is valid and `params()` yields `W` and, if it exists, the bias, each once and nothing else (as a multiset) |
| LinearLayers.ClearGradsOfLinear | my_framework/layers.py:36-38 | `cleargrads()` on a family layer succeeds, and afterwards `params()` yields `W` and the bias, if any, with cleared gradients and unchanged data (as a multiset) |
| Scenarios.ThreeParameters | my_framework/layers.py:28-34 | a layer with Parameters `a`, `b` and a sub-layer `c` holding one Parameter enumerates exactly those three Parameters, as a multiset |
| Scenarios.DefaultBiases | my_framework/layers.py:42-58 | with `nobias` left at its default, `Linear(4)` has a zero bias of length 4, while `Q_Linear(4, 2)` and `B_Linear(4)` have none (defaults on lines 42, 76 and 111) |
| Scenarios.FailedCallKeepsLayer | my_framework/layers.py:17-23 | once the weight exists, a failing `layer(x)` leaves the whole layer unchanged |
| Scenarios.ClearKeepsChild | my_framework/layers.py:36-38 | `cleargrads()` keeps a tracked sub-layer a sub-layer, with its own tracked set, record and untracked attributes unchanged |
| Scenarios.ZeroWidthFirstInput | my_framework/layers.py:60-69 | a first input of width zero sets `in_size` to 0, and `forward` then fails with ZeroDivisionError |
| Scenarios.EmptyResultStillRecorded | my_framework/layers.py:17-23 | a `forward` that returns an empty tuple leaves the references to the arguments and an empty output list on the layer, then raises IndexError |
| Scenarios.UnreferenceableArgument | my_framework/layers.py:17-21 | an argument that cannot be weakly referenced raises TypeError before the record is touched |
| Scenarios.UnreferenceableResult | my_framework/layers.py:17-22 | a result that cannot be weakly referenced raises TypeError after the new inputs were written next to the old outputs |
| Scenarios.OneDimensionalFirstInput | my_framework/layers.py:17-18 | before the weight exists, `layer(x)` on a 1-D input raises IndexError from `forward` (line 68) and leaves the layer unchanged |

## Left out

- Random initial values and the `sqrt(1 / I)` factor. An initialised weight records only its
  shape and the tag `ScaledNormal(in_size)`. The zero bias records only its shape and the
  tag `Zeros`.
- `F.linear`, `F.q_linear` and `F.b_linear`. `my_framework/functions` is not part of this
  model.
  - `LinearLayers.Apply` stands in for them under an assumption, not a description of their
    code. It accepts exactly a 2-D input whose width equals the row count of a 2-D `W`, and
    returns a new (batch, out) array. It rejects every other input with `ShapeMismatch`,
    including inputs that are not 2-D. It does not look at the bias and computes no numbers.
  - `LinearLayers.Call` and `LinearLayers.LaterWidthMismatch` state results that rest on this
    assumption: a successful call had a 2-D input, and a width mismatch fails.
- The internals of `Parameter`. `my_framework/core` is not part of this model.
  - A parameter is a record of a name, optional data and an optional gradient.
  - `cleargrad` sets the gradient to absent.
- Object identity and aliasing. Values are immutable, so a Parameter stored under two names
  is two copies. Clearing one copy does not clear the other.
  - "Parameters not reachable from the layer" appear in the model only as the untracked
    attributes, which `ClearGrads` leaves unchanged.
  - In-place updates such as `self.W.data = ...` become a new layer state.
- The liveness of `weakref.ref` targets and garbage collection. A reference records only the
  identity of its target.
- The `dtype` argument and the casts it drives. The dictionary holds the default
  `float32` as an opaque value.
- Cyclic module graphs. The tree datatype rules them out, so the recursion in `params()`
  always terminates.
- Calls.Record: the `inputs` and `outputs` a call leaves behind are kept in a field of their
  own. In the code they are ordinary attribute stores into the same `__dict__`. So the model
  leaves out two effects. A call overwrites a user attribute named `inputs` or `outputs`. And
  if such a name was tracked, `params()` would afterwards yield the list of references, and
  `cleargrads()` would raise AttributeError. The dictionary `LinearLayers.AsLayer` shows is the
  one the constructor builds, without these two entries.
- Objects other than a `Parameter` that define their own `cleargrad` method. `cleargrad` is
  looked up by name, so the code would call it on them. The model has no such values.
- Attribute deletion. No `__delattr__` appears in the code. A tracked name missing from the
  dictionary, which would raise `KeyError` in `params()`, cannot arise from stores.
- `in_size` given as a numpy integer. `1 / I` then gives infinity with a warning instead of
  `ZeroDivisionError`. The model treats sizes as Python integers.
- `sample/qmnist.py`: an end-to-end training script made of data loading, an optimiser
  loop, printing and plotting.
- Layers.ClearGrads: on `AttributeError`, the model returns only the error. It does not
  return the parameters cleared before the failure, because which ones those are depends on
  the unspecified order in which a `set` is iterated.
- Layers.Walk: yields items in dictionary insertion order. The code iterates a `set`, whose
  order can differ from run to run, so `Walk` fixes one of the orders the code may produce.
  The properties cited above state membership, one-to-one correspondence or multiset
  equality, which hold for every order. The helper lemmas `LinearLayers.AsLayerWalk` and
  `LinearLayers.ClearOwnLeaves`, and the worked instance `Scenarios.ThreeWalk`, state sequences
  in the model's order.
- Layers.Empty: the `_params` entry that `Layer.__init__` stores in `__dict__` is represented
  by the `tracked` field, not by a slot. So a store under the name `_params`, which would
  replace the tracked set in the code, is not modelled, and the dictionaries this model shows
  lack that first entry.

=== FILE: base.dfy ===
/** Failure-carrying values shared by every module of the model. */
module Base {

  /** Python's `None` or a present value. */
  datatype Option<+T> = None | Some(value: T)

  /** The exceptions the layer code can raise, or lets propagate from the
      operators it calls. */
  datatype Error =
    | NotImplemented   // `Layer.forward` was not overridden
    | TypeError        // wrong number of arguments, or a value that cannot be weakly referenced
    | IndexError       // indexing past the end of a tuple or a shape
    | AttributeError   // a value without the attribute the code reaches for
    | ValueError       // a negative array dimension
    | ZeroDivision     // `1 / in_size` with `in_size == 0`
    | ShapeMismatch    // raised by the external numeric operator

  /** Either a value or the exception that was raised instead. */
  datatype Result<+T> = Ok(value: T) | Err(error: Error)
}

=== FILE: calls.dfy ===
/** `Layer.__call__`: run `forward`, normalise its result to a tuple, keep
    non-owning references to the arguments and the results, and hand back
    either the single result or the whole tuple. */
module Calls {
  import opened Base
  import opened Tensors

  /** What `forward` hands back: a value that is not a tuple, or a tuple. */
  datatype Returned = Single(value: Obj) | Tuple(items: seq<Obj>)

  /** The `inputs` and `outputs` attributes a call leaves on the layer; each
      is absent until the first call that gets as far as assigning it. */
  datatype Record = Record(inputs: Option<seq<Ref>>, outputs: Option<seq<Ref>>)

  /** A freshly constructed layer has no record. */
  const NoRecord := Record(None, None)

  /** The tuple view of a result: a non-tuple becomes a one-element tuple. */
  function AsTuple(out: Returned): (items: seq<Obj>)
  {
    match out
    case Single(v) => [v]
    case Tuple(items) => items
  }

  predicate Referenceable(o: Obj) { o.Var? }

  /** `[weakref.ref(x) for x in objs]`: one reference per object, in order,
      or a TypeError when some object cannot be weakly referenced. */
  function RefsTo(objs: seq<Obj>): (r: Option<seq<Ref>>)
    ensures r.Some? <==> forall i :: 0 <= i < |objs| ==> Referenceable(objs[i])
    ensures r.Some? ==> |r.value| == |objs|
    ensures r.Some? ==> forall i :: 0 <= i < |objs| ==> r.value[i] == Ref(objs[i].id)
  {
    if objs == [] then Some([])
    else if !Referenceable(objs[0]) then None
    else
      match RefsTo(objs[1..])
      case None => None
      case Some(rest) => Some([Ref(objs[0].id)] + rest)
  }

  lemma RefsToOne(o: Obj)
    ensures Referenceable(o) ==> RefsTo([o]) == Some([Ref(o.id)])
  {
    if Referenceable(o) {
      assert [o][1..] == [];
      assert RefsTo([]) == Some([]);
      assert [Ref(o.id)] + [] == [Ref(o.id)];
    }
  }

  /** The call protocol around an already evaluated `forward(*args)`.
      Returns the record left on the layer together with the outcome. The
      record is written in two steps, inputs first, so a failure while
      referencing the outputs leaves the new inputs next to the old outputs;
      an empty tuple from `forward` fails with IndexError only after both
      parts of the record were overwritten. */
  function Invoke(rec: Record, args: seq<Obj>, fwd: Result<Returned>): (r: (Record, Result<Returned>))
    ensures fwd.Err? ==> r == (rec, fwd)
    ensures fwd.Ok? && RefsTo(args).None? ==> r == (rec, Err(TypeError))
    ensures fwd.Ok? && RefsTo(args).Some? && RefsTo(AsTuple(fwd.value)).None? ==>
              r == (rec.(inputs := RefsTo(args)), Err(TypeError))
    ensures r.1.Ok? <==>
              && fwd.Ok?
              && (forall i :: 0 <= i < |args| ==> Referenceable(args[i]))
              && (forall i :: 0 <= i < |AsTuple(fwd.value)| ==> Referenceable(AsTuple(fwd.value)[i]))
              && |AsTuple(fwd.value)| >= 1
    ensures r.1.Ok? ==>
              && r.0.inputs.Some? && |r.0.inputs.value| == |args|
              && r.0.outputs.Some? && |r.0.outputs.value| == |AsTuple(fwd.value)|
              && (forall i :: 0 <= i < |args| ==> r.0.inputs.value[i] == Ref(args[i].id))
    ensures r.1.Ok? ==> r.0 == Record(RefsTo(args), RefsTo(AsTuple(fwd.value)))
    ensures r.1.Ok? && |AsTuple(fwd.value)| == 1 ==> r.1.value == Single(AsTuple(fwd.value)[0])
    ensures r.1.Ok? && |AsTuple(fwd.value)| > 1 ==> r.1.value == Tuple(AsTuple(fwd.value))
    ensures fwd.Ok? && |AsTuple(fwd.value)| == 0 && RefsTo(args).Some? ==>
              r == (Record(RefsTo(args), Some([])), Err(IndexError))
  {
    match fwd
    case Err(e) => (rec, Err(e))
    case Ok(ret) =>
      var outs := AsTuple(ret);
      match RefsTo(args)
      case None => (rec, Err(TypeError))
      case Some(ins) =>
        var rec1 := rec.(inputs := Some(ins));
        match RefsTo(outs)
        case None => (rec1, Err(TypeError))
        case Some(os) =>
          var rec2 := rec1.(outputs := Some(os));
          if |outs| > 1 then (rec2, Ok(Tuple(outs)))
          else if |outs| == 1 then (rec2, Ok(Single(outs[0])))
          else (rec2, Err(IndexError))
  }

  /** Whatever `__call__` hands back carries the same values as `forward`'s
      result: normalising it again gives back the same tuple. */
  lemma InvokePreservesResults(rec: Record, args: seq<Obj>, fwd: Result<Returned>)
    requires Invoke(rec, args, fwd).1.Ok?
    ensures AsTuple(Invoke(rec, args, fwd).1.value) == AsTuple(fwd.value)
  {
    var outs := AsTuple(fwd.value);
    if |outs| == 1 {
      assert AsTuple(Single(outs[0])) == [outs[0]] == outs;
    }
  }

  /** A successful call overwrites the whole record: what was there before
      has no influence on what is there afterwards. */
  lemma InvokeOverwritesRecord(rec1: Record, rec2: Record, args: seq<Obj>, fwd: Result<Returned>)
    requires Invoke(rec1, args, fwd).1.Ok?
    ensures Invoke(rec2, args, fwd) == Invoke(rec1, args, fwd)
    ensures Invoke(rec1, args, fwd).0.outputs == RefsTo(AsTuple(fwd.value))
  {
  }

  /** The base class's `forward(self, inputs)`: it takes exactly one
      argument and always raises NotImplementedError; any other argument
      count fails in the call itself with TypeError. */
  function BaseForward(args: seq<Obj>): (r: Result<Returned>)
    ensures r.Err?
    ensures r.error == NotImplemented <==> |args| == 1
    ensures r.error != NotImplemented ==> r.error == TypeError
  {
    if |args| != 1 then Err(TypeError) else Err(NotImplemented)
  }

  /** Calling a layer whose `forward` is not overridden raises and leaves
      the previous record in place. */
  lemma BaseCallRaises(rec: Record, args: seq<Obj>)
    ensures Invoke(rec, args, BaseForward(args)).0 == rec
    ensures Invoke(rec, args, BaseForward(args)).1.Err?
    ensures |args| == 1 ==> Invoke(rec, args, BaseForward(args)).1 == Err(NotImplemented)
  {
  }
}

=== FILE: layers.dfy ===
/** The `Layer` base class: attribute stores that register parameters and
    sub-layers by name, the recursive enumeration of parameters, and
    gradient clearing.

    A layer is a tree: its attribute dictionary may hold other layers, and
    an inductive datatype cannot hold itself, so the module graph is acyclic
    by construction. */
module Layers {
  import opened Base
  import opened Tensors
  import opened Calls

  /** A value stored in an attribute. */
  datatype Value =
    | Param(p: Parameter)
    | Sub(layer: Layer)
    | NoneValue
    | Int(i: int)
    | Other(tag: string)   // any other Python object (a dtype, a list, ...), without a `cleargrad` method

  /** One entry of the attribute dictionary `__dict__`. */
  datatype Slot = Slot(name: string, value: Value)

  /** A layer: its attribute dictionary in insertion order, the set of
      tracked names (`_params`), and the record of its most recent call. */
  datatype Layer = Layer(slots: seq<Slot>, tracked: set<string>, record: Record)

  /** `isinstance(value, (Parameter, Layer))`: the values whose store
      registers the name. */
  predicate Trackable(v: Value) { v.Param? || v.Sub? }

  /** `Layer.__init__`: no attribute besides the tracked-name set itself,
      nothing tracked, no call record. The `_params` entry of `__dict__` is
      represented by the `tracked` field, not by a slot. */
  const Empty := Layer([], {}, NoRecord)

  function Names(slots: seq<Slot>): (names: set<string>)
  {
    set i | 0 <= i < |slots| :: slots[i].name
  }

  /** A dictionary never holds the same key twice. */
  predicate Distinct(slots: seq<Slot>)
  {
    forall i, j :: 0 <= i < j < |slots| ==> slots[i].name != slots[j].name
  }

  // ---------------------------------------------------------------------
  // The attribute dictionary
  // ---------------------------------------------------------------------

  /** Position of the first entry called `name`. */
  function IndexOf(slots: seq<Slot>, name: string): (r: Option<nat>)
    ensures r.Some? ==> r.value < |slots| && slots[r.value].name == name
    ensures r.Some? ==> forall j :: 0 <= j < r.value ==> slots[j].name != name
    ensures r.None? <==> name !in Names(slots)
  {
    if slots == [] then None
    else if slots[0].name == name then Some(0)
    else
      match IndexOf(slots[1..], name)
      case None =>
        assert Names(slots) == {slots[0].name} + Names(slots[1..]) by {
          assert forall i :: 0 < i < |slots| ==> slots[i] == slots[1..][i - 1];
        }
        None
      case Some(k) => Some(k + 1)
  }

  /** `self.__dict__[name]`, or None when the attribute does not exist. */
  function Lookup(slots: seq<Slot>, name: string): (r: Option<Value>)
  {
    match IndexOf(slots, name)
    case None => None
    case Some(i) => Some(slots[i].value)
  }

  /** Only the names decide where a key is found. */
  lemma {:induction false} IndexOfByNames(a: seq<Slot>, b: seq<Slot>, name: string)
    requires |a| == |b|
    requires forall i :: 0 <= i < |a| ==> a[i].name == b[i].name
    ensures IndexOf(a, name) == IndexOf(b, name)
  {
    if a != [] && a[0].name != name {
      IndexOfByNames(a[1..], b[1..], name);
    }
  }

  /** In a dictionary without repeated keys, each entry is found at its own
      position. */
  lemma IndexOfDistinct(slots: seq<Slot>, i: nat)
    requires Distinct(slots) && i < |slots|
    ensures IndexOf(slots, slots[i].name) == Some(i)
  {
    var r := IndexOf(slots, slots[i].name);
    assert slots[i].name in Names(slots);
  }

  /** Dictionary assignment: an existing key keeps its position and gets the
      new value; a new key is appended. */
  function Store(slots: seq<Slot>, name: string, v: Value): (r: seq<Slot>)
    ensures Lookup(r, name) == Some(v)
    ensures Names(r) == Names(slots) + {name}
    ensures name in Names(slots) ==> |r| == |slots|
    ensures |slots| <= |r|
    ensures forall i :: 0 <= i < |slots| && slots[i].name != name ==> r[i] == slots[i]
    ensures forall i :: 0 <= i < |slots| ==> r[i].name == slots[i].name
    ensures name !in Names(slots) ==> r == slots + [Slot(name, v)]
    ensures Distinct(slots) ==> Distinct(r)
  {
    match IndexOf(slots, name)
    case Some(i) =>
      var r := slots[i := Slot(name, v)];
      IndexOfByNames(r, slots, name);
      assert Names(r) == Names(slots) by {
        assert forall j :: 0 <= j < |r| ==> r[j].name == slots[j].name;
      }
      r
    case None =>
      var r := slots + [Slot(name, v)];
      IndexOfAppendNew(slots, Slot(name, v));
      assert Names(r) == Names(slots) + {name} by {
        assert r[|slots|].name == name;
        assert forall j :: 0 <= j < |slots| ==> r[j] == slots[j];
      }
      r
  }

  /** Assigning one key leaves every other key's lookup as it was. */
  lemma StoreKeepsOthers(slots: seq<Slot>, name: string, v: Value, n: string)
    requires n != name
    ensures Lookup(Store(slots, name, v), n) == Lookup(slots, n)
  {
    var r := Store(slots, name, v);
    if name in Names(slots) {
      IndexOfByNames(r, slots, n);
    } else {
      LookupAppend(slots, Slot(name, v), n);
    }
  }

  /** A new key is found where it was appended. */
  lemma {:induction false} IndexOfAppendNew(slots: seq<Slot>, s: Slot)
    requires s.name !in Names(slots)
    ensures IndexOf(slots + [s], s.name) == Some(|slots|)
  {
    assert (slots + [s])[|slots|].name == s.name;
    assert forall j :: 0 <= j < |slots| ==> (slots + [s])[j] == slots[j];
  }

  /** Appending an entry under another key does not change a lookup. */
  lemma {:induction false} LookupAppend(slots: seq<Slot>, s: Slot, n: string)
    requires s.name != n
    ensures IndexOf(slots + [s], n) == IndexOf(slots, n)
  {
    if slots != [] {
      assert (slots + [s])[1..] == slots[1..] + [s];
      LookupAppend(slots[1..], s, n);
    } else {
      assert ([] + [s])[1..] == [];
    }
  }

  /** `Layer.__setattr__`: register the name when the value is a Parameter
      or a Layer, then store the value either way. */
  function SetAttr(l: Layer, name: string, v: Value): (r: Layer)
    ensures r.tracked == if Trackable(v) then l.tracked + {name} else l.tracked
    ensures Lookup(r.slots, name) == Some(v)
    ensures Names(r.slots) == Names(l.slots) + {name}
    ensures r.record == l.record
  {
    Layer(Store(l.slots, name, v), if Trackable(v) then l.tracked + {name} else l.tracked, l.record)
  }

  /** An attribute store changes no other attribute. */
  lemma SetAttrKeepsOthers(l: Layer, name: string, v: Value)
    ensures forall n :: n != name ==> Lookup(SetAttr(l, name, v).slots, n) == Lookup(l.slots, n)
  {
    forall n | n != name ensures Lookup(SetAttr(l, name, v).slots, n) == Lookup(l.slots, n) {
      StoreKeepsOthers(l.slots, name, v, n);
    }
  }

  /** Storing the same value under the same name twice is the same as
      storing it once. */
  lemma SetAttrIdempotent(l: Layer, name: string, v: Value)
    ensures SetAttr(SetAttr(l, name, v), name, v) == SetAttr(l, name, v)
  {
    var s1 := Store(l.slots, name, v);
    var i :| i < |s1| && IndexOf(s1, name) == Some(i);
    assert s1[i] == Slot(name, v);
    assert s1[i := Slot(name, v)] == s1;
  }

  /** One attribute store `self.<name> = <value>`. */
  datatype Assign = Assign(name: string, value: Value)

  /** A sequence of attribute stores, in order. */
  function SetAll(l: Layer, ops: seq<Assign>): (r: Layer)
    decreases |ops|
  {
    if ops == [] then l else SetAll(SetAttr(l, ops[0].name, ops[0].value), ops[1..])
  }

  /** The tracked set only grows: no store removes a name, and every name
      that ever received a Parameter or a Layer stays tracked, whatever is
      stored under it afterwards. */
  lemma {:induction false} TrackedOnlyGrows(l: Layer, ops: seq<Assign>)
    ensures l.tracked <= SetAll(l, ops).tracked
    ensures forall k :: 0 <= k < |ops| && Trackable(ops[k].value) ==> ops[k].name in SetAll(l, ops).tracked
    ensures SetAll(l, ops).tracked - l.tracked <= set k | 0 <= k < |ops| && Trackable(ops[k].value) :: ops[k].name
    decreases |ops|
  {
    if ops != [] {
      var l1 := SetAttr(l, ops[0].name, ops[0].value);
      TrackedOnlyGrows(l1, ops[1..]);
      forall k | 0 < k < |ops| && Trackable(ops[k].value)
        ensures ops[k].name in SetAll(l, ops).tracked
      {
        assert ops[1..][k - 1] == ops[k];
      }
      var later := set k | 0 <= k < |ops[1..]| && Trackable(ops[1..][k].value) :: ops[1..][k].name;
      var all := set k | 0 <= k < |ops| && Trackable(ops[k].value) :: ops[k].name;
      assert later <= all by {
        forall n | n in later ensures n in all {
          var k :| 0 <= k < |ops[1..]| && Trackable(ops[1..][k].value) && ops[1..][k].name == n;
          assert ops[k + 1] == ops[1..][k];
        }
      }
    }
  }

  /** The entries a sequence of stores of distinct new names appends. */
  function AsSlots(ops: seq<Assign>): (r: seq<Slot>)
    ensures |r| == |ops|
    ensures forall k :: 0 <= k < |ops| ==> r[k] == Slot(ops[k].name, ops[k].value)
  {
    seq(|ops|, k requires 0 <= k < |ops| => Slot(ops[k].name, ops[k].value))
  }

  lemma AsSlotsConcat(a: seq<Assign>, b: seq<Assign>)
    ensures AsSlots(a + b) == AsSlots(a) + AsSlots(b)
  {
  }

  /** The names a sequence of stores registers. */
  function TrackedNames(ops: seq<Assign>): (names: set<string>)
  {
    set k | 0 <= k < |ops| && Trackable(ops[k].value) :: ops[k].name
  }

  /** Stores of distinct names the layer does not have yet append one entry
      each, in order, and register exactly the names given a Parameter or a
      Layer: this is how a constructor builds its attribute dictionary. */
  lemma SetAllNew(l: Layer, ops: seq<Assign>)
    requires Fresh(ops, Names(l.slots))
    requires forall j, k :: 0 <= j < k < |ops| ==> ops[j].name != ops[k].name
    ensures SetAll(l, ops).slots == l.slots + AsSlots(ops)
    ensures SetAll(l, ops).tracked == l.tracked + TrackedNames(ops)
    ensures SetAll(l, ops).record == l.record
  {
    SetAllAppends(l, ops);
    SetAllRegisters(l, ops);
  }

  /** The store that `SetAll` performs first, on a new name, written out. */
  function Appended(l: Layer, a: Assign): (r: Layer)
  {
    Layer(l.slots + [Slot(a.name, a.value)], if Trackable(a.value) then l.tracked + {a.name} else l.tracked, l.record)
  }

  lemma {:induction false} SetAllAppends(l: Layer, ops: seq<Assign>)
    requires Fresh(ops, Names(l.slots))
    requires forall j, k :: 0 <= j < k < |ops| ==> ops[j].name != ops[k].name
    ensures SetAll(l, ops).slots == l.slots + AsSlots(ops)
    ensures SetAll(l, ops).record == l.record
    decreases |ops|
  {
    if ops != [] {
      var l1 := Appended(l, ops[0]);
      SetAllStep(l, ops);
      FreshStep(l, ops);
      SetAllAppends(l1, ops[1..]);
      AsSlotsCons(ops);
      AppendAssoc(l.slots, [Slot(ops[0].name, ops[0].value)], AsSlots(ops[1..]));
    }
  }

  lemma {:induction false} SetAllRegisters(l: Layer, ops: seq<Assign>)
    requires Fresh(ops, Names(l.slots))
    requires forall j, k :: 0 <= j < k < |ops| ==> ops[j].name != ops[k].name
    ensures SetAll(l, ops).tracked == l.tracked + TrackedNames(ops)
    decreases |ops|
  {
    if ops != [] {
      var l1 := Appended(l, ops[0]);
      SetAllStep(l, ops);
      FreshStep(l, ops);
      SetAllRegisters(l1, ops[1..]);
      TrackedNamesCons(ops);
    }
  }

  /** After the first store of new, distinct names the rest are still new
      and distinct. */
  lemma FreshStep(l: Layer, ops: seq<Assign>)
    requires ops != [] && Fresh(ops, Names(l.slots))
    requires forall j, k :: 0 <= j < k < |ops| ==> ops[j].name != ops[k].name
    ensures Fresh(ops[1..], Names(Appended(l, ops[0]).slots))
    ensures forall j, k :: 0 <= j < k < |ops[1..]| ==> ops[1..][j].name != ops[1..][k].name
  {
    FreshTail(ops, Names(l.slots));
    SetAttrAppends(l, ops[0].name, ops[0].value);
  }

  /** Kept apart from `SetAllAppends`: with the quantified facts about
      `AsSlots` in scope the solver does not find this step reliably. */
  lemma AppendAssoc(a: seq<Slot>, b: seq<Slot>, c: seq<Slot>)
    ensures a + (b + c) == (a + b) + c
  {
  }

  /** One step of `SetAll` on a new name, with the store written out. */
  lemma SetAllStep(l: Layer, ops: seq<Assign>)
    requires ops != [] && ops[0].name !in Names(l.slots)
    ensures SetAll(l, ops) == SetAll(Appended(l, ops[0]), ops[1..])
  {
    SetAttrAppends(l, ops[0].name, ops[0].value);
  }

  /** None of the stores names a key in `names`. */
  predicate Fresh(ops: seq<Assign>, names: set<string>)
  {
    forall k :: 0 <= k < |ops| ==> ops[k].name !in names
  }

  lemma FreshTail(ops: seq<Assign>, names: set<string>)
    requires ops != [] && Fresh(ops, names)
    requires forall j, k :: 0 <= j < k < |ops| ==> ops[j].name != ops[k].name
    ensures Fresh(ops[1..], names + {ops[0].name})
    ensures forall j, k :: 0 <= j < k < |ops[1..]| ==> ops[1..][j].name != ops[1..][k].name
  {
    forall k | 0 <= k < |ops[1..]| ensures ops[1..][k].name !in names + {ops[0].name} {
      assert ops[1..][k] == ops[k + 1];
    }
  }

  /** Storing under a new name appends one entry. */
  lemma SetAttrAppends(l: Layer, name: string, v: Value)
    requires name !in Names(l.slots)
    ensures SetAttr(l, name, v).slots == l.slots + [Slot(name, v)]
    ensures Names(SetAttr(l, name, v).slots) == Names(l.slots) + {name}
  {
  }

  lemma TrackedNamesConcat(a: seq<Assign>, b: seq<Assign>)
    ensures TrackedNames(a + b) == TrackedNames(a) + TrackedNames(b)
  {
    forall n | n in TrackedNames(a + b) ensures n in TrackedNames(a) + TrackedNames(b) {
      var k :| 0 <= k < |a + b| && Trackable((a + b)[k].value) && (a + b)[k].name == n;
      if k >= |a| { assert (a + b)[k] == b[k - |a|]; }
    }
    forall n | n in TrackedNames(b) ensures n in TrackedNames(a + b) {
      var k :| 0 <= k < |b| && Trackable(b[k].value) && b[k].name == n;
      assert (a + b)[|a| + k] == b[k];
    }
    forall n | n in TrackedNames(a) ensures n in TrackedNames(a + b) {
      var k :| 0 <= k < |a| && Trackable(a[k].value) && a[k].name == n;
      assert (a + b)[k] == a[k];
    }
  }

  lemma AsSlotsCons(ops: seq<Assign>)
    requires ops != []
    ensures AsSlots(ops) == [Slot(ops[0].name, ops[0].value)] + AsSlots(ops[1..])
  {
  }

  lemma TrackedNamesCons(ops: seq<Assign>)
    requires ops != []
    ensures TrackedNames(ops) == (if Trackable(ops[0].value) then {ops[0].name} else {}) + TrackedNames(ops[1..])
  {
    var rest := TrackedNames(ops[1..]);
    forall n | n in rest ensures n in TrackedNames(ops) {
      var k :| 0 <= k < |ops[1..]| && Trackable(ops[1..][k].value) && ops[1..][k].name == n;
      assert ops[k + 1] == ops[1..][k];
    }
    forall k | 0 < k < |ops| && Trackable(ops[k].value) ensures ops[k].name in rest {
      assert ops[1..][k - 1] == ops[k];
    }
  }

  /** The layer invariant kept by every attribute store: keys are distinct,
      tracked names exist, every Parameter or Layer attribute is tracked, and
      every sub-layer satisfies the same. A tracked name may hold a value of
      any type, because re-assigning it never untracks it. */
  predicate Valid(l: Layer)
    decreases l
  {
    && Distinct(l.slots)
    && l.tracked <= Names(l.slots)
    && (forall i :: 0 <= i < |l.slots| && Trackable(l.slots[i].value) ==> l.slots[i].name in l.tracked)
    && (forall i :: 0 <= i < |l.slots| && l.slots[i].value.Sub? ==> Valid(l.slots[i].value.layer))
  }

  /** Attribute stores keep a layer valid. */
  lemma SetAttrValid(l: Layer, name: string, v: Value)
    requires Valid(l)
    requires v.Sub? ==> Valid(v.layer)
    ensures Valid(SetAttr(l, name, v))
  {
    var r := SetAttr(l, name, v);
    forall i | 0 <= i < |r.slots|
      ensures Trackable(r.slots[i].value) ==> r.slots[i].name in r.tracked
      ensures r.slots[i].value.Sub? ==> Valid(r.slots[i].value.layer)
    {
      if r.slots[i].name == name {
        IndexOfDistinct(r.slots, i);
        assert r.slots[i].value == v;
      } else {
        assert i < |l.slots| && r.slots[i] == l.slots[i];
      }
    }
  }

  // ---------------------------------------------------------------------
  // Parameter enumeration
  // ---------------------------------------------------------------------

  /** One item yielded by the enumeration, with the tracked names leading
      to it from the root. */
  datatype Leaf = Leaf(path: seq<string>, value: Value)

  /** The leaves of a sub-layer stored under `name`, seen from its parent. */
  function Prefix(name: string, w: seq<Leaf>): (r: seq<Leaf>)
    ensures |r| == |w|
    ensures forall k :: 0 <= k < |w| ==> r[k] == Leaf([name] + w[k].path, w[k].value)
  {
    seq(|w|, k requires 0 <= k < |w| => Leaf([name] + w[k].path, w[k].value))
  }

  /** `Layer.params()`: for each tracked name, the sub-layer's own items if
      the value is a Layer, the value itself otherwise. Attributes are
      visited in dictionary order. */
  function Walk(l: Layer): (r: seq<Leaf>)
    decreases l
    ensures forall k :: 0 <= k < |r| ==> !r[k].value.Sub? && |r[k].path| >= 1
    ensures forall k :: 0 <= k < |r| ==> r[k].path[0] in l.tracked && r[k].path[0] in Names(l.slots)
  {
    WalkSlots(l.slots, l.tracked)
  }

  function WalkSlots(slots: seq<Slot>, tracked: set<string>): (r: seq<Leaf>)
    decreases slots
    ensures forall k :: 0 <= k < |r| ==> !r[k].value.Sub? && |r[k].path| >= 1
    ensures forall k :: 0 <= k < |r| ==> r[k].path[0] in tracked && r[k].path[0] in Names(slots)
  {
    if slots == [] then []
    else
      var here := SlotLeaves(slots[0], tracked);
      var rest := WalkSlots(slots[1..], tracked);
      assert forall k :: 0 <= k < |rest| ==> rest[k].path[0] in Names(slots) by {
        forall n | n in Names(slots[1..]) ensures n in Names(slots) {
          var i :| 0 <= i < |slots[1..]| && slots[1..][i].name == n;
          assert slots[i + 1].name == n;
        }
      }
      here + rest
  }

  function SlotLeaves(s: Slot, tracked: set<string>): (r: seq<Leaf>)
    decreases s
    ensures forall k :: 0 <= k < |r| ==> !r[k].value.Sub? && |r[k].path| >= 1
    ensures forall k :: 0 <= k < |r| ==> r[k].path[0] == s.name && s.name in tracked
  {
    if s.name !in tracked then []
    else
      match s.value
      case Sub(sub) => Prefix(s.name, Walk(sub))
      case v => [Leaf([s.name], v)]
  }

  /** The enumeration of a dictionary split in two is the enumeration of
      each part, one after the other. */
  lemma {:induction false} WalkSlotsConcat(a: seq<Slot>, b: seq<Slot>, tracked: set<string>)
    ensures WalkSlots(a + b, tracked) == WalkSlots(a, tracked) + WalkSlots(b, tracked)
  {
    if a != [] {
      assert (a + b)[0] == a[0] && (a + b)[1..] == a[1..] + b;
      WalkSlotsConcat(a[1..], b, tracked);
    } else {
      assert a + b == b;
    }
  }

  lemma WalkSlotsOne(s: Slot, tracked: set<string>)
    ensures WalkSlots([s], tracked) == SlotLeaves(s, tracked)
  {
    assert [s][1..] == [];
  }

  /** Untracked attributes contribute nothing to the enumeration. */
  lemma {:induction false} WalkSlotsSkips(slots: seq<Slot>, tracked: set<string>)
    requires forall i :: 0 <= i < |slots| ==> slots[i].name !in tracked
    ensures WalkSlots(slots, tracked) == []
  {
    if slots != [] {
      WalkSlotsSkips(slots[1..], tracked);
    }
  }

  /** The objects `params()` yields, in the order it yields them. */
  function Params(l: Layer): (ps: seq<Value>)
  {
    var w := Walk(l);
    seq(|w|, k requires 0 <= k < |w| => w[k].value)
  }

  /** The value reached from `l` by following tracked names, ending at an
      attribute that is not a Layer. */
  function Resolve(l: Layer, path: seq<string>): (r: Option<Value>)
    decreases l
  {
    if path == [] || path[0] !in l.tracked then None
    else
      match IndexOf(l.slots, path[0])
      case None => None
      case Some(i) =>
        match l.slots[i].value
        case Sub(sub) => Resolve(sub, path[1..])
        case v => if |path| == 1 then Some(v) else None
  }

  lemma {:induction false} WalkSlotsContains(slots: seq<Slot>, tracked: set<string>, i: nat, leaf: Leaf)
    requires i < |slots| && leaf in SlotLeaves(slots[i], tracked)
    ensures leaf in WalkSlots(slots, tracked)
  {
    if i > 0 {
      assert slots[1..][i - 1] == slots[i];
      WalkSlotsContains(slots[1..], tracked, i - 1, leaf);
    }
  }

  /** Every tracked leaf of the tree is enumerated. */
  lemma {:induction false} WalkComplete(l: Layer, path: seq<string>, v: Value)
    requires Resolve(l, path) == Some(v)
    ensures Leaf(path, v) in Walk(l)
    decreases l
  {
    var i := IndexOf(l.slots, path[0]).value;
    var s := l.slots[i];
    assert path == [s.name] + path[1..];
    match s.value
    case Sub(sub) =>
      WalkComplete(sub, path[1..], v);
      var w := Walk(sub);
      var k :| 0 <= k < |w| && w[k] == Leaf(path[1..], v);
      assert Prefix(s.name, w)[k] == Leaf(path, v);
      WalkSlotsContains(l.slots, l.tracked, i, Leaf(path, v));
    case _ =>
      assert |path| == 1 && v == s.value;
      assert path == [s.name];
      assert SlotLeaves(s, l.tracked) == [Leaf(path, v)];
      WalkSlotsContains(l.slots, l.tracked, i, Leaf(path, v));
  }

  /** Each enumerated item comes from one slot of the dictionary. */
  lemma {:induction false} WalkSlotsMember(slots: seq<Slot>, tracked: set<string>, leaf: Leaf) returns (i: nat)
    requires leaf in WalkSlots(slots, tracked)
    ensures i < |slots| && leaf in SlotLeaves(slots[i], tracked)
  {
    if leaf in SlotLeaves(slots[0], tracked) {
      i := 0;
    } else {
      var j := WalkSlotsMember(slots[1..], tracked, leaf);
      assert slots[1..][j] == slots[j + 1];
      i := j + 1;
    }
  }

  /** Every enumerated item is the tracked leaf its path leads to. */
  lemma {:induction false} WalkSound(l: Layer, leaf: Leaf)
    requires Valid(l)
    requires leaf in Walk(l)
    ensures Resolve(l, leaf.path) == Some(leaf.value)
    decreases l
  {
    var i := WalkSlotsMember(l.slots, l.tracked, leaf);
    var s := l.slots[i];
    IndexOfDistinct(l.slots, i);
    match s.value
    case Sub(sub) =>
      var w := Walk(sub);
      var k :| 0 <= k < |w| && Prefix(s.name, w)[k] == leaf;
      WalkSound(sub, w[k]);
      assert leaf.path[1..] == w[k].path;
    case _ =>
  }

  /** No two enumerated items are reached by the same path. */
  predicate DistinctPaths(w: seq<Leaf>)
  {
    forall j, k :: 0 <= j < k < |w| ==> w[j].path != w[k].path
  }

  /** Every tracked leaf is enumerated exactly once: distinct positions of
      the enumeration are distinct leaves of the tree. */
  lemma {:induction false} WalkOnce(l: Layer)
    requires Valid(l)
    ensures DistinctPaths(Walk(l))
    decreases l
  {
    WalkSlotsOnce(l.slots, l.tracked);
  }

  lemma {:induction false} WalkSlotsOnce(slots: seq<Slot>, tracked: set<string>)
    requires Distinct(slots)
    requires forall i :: 0 <= i < |slots| && slots[i].value.Sub? ==> Valid(slots[i].value.layer)
    ensures DistinctPaths(WalkSlots(slots, tracked))
    decreases slots
  {
    if slots != [] {
      var here := SlotLeaves(slots[0], tracked);
      var rest := WalkSlots(slots[1..], tracked);
      if slots[0].name in tracked && slots[0].value.Sub? {
        var w := Walk(slots[0].value.layer);
        WalkOnce(slots[0].value.layer);
        forall j, k | 0 <= j < k < |here| ensures here[j].path != here[k].path {
          assert here[j].path[1..] == w[j].path;
          assert here[k].path[1..] == w[k].path;
        }
      }
      forall n | n in Names(slots[1..]) ensures n != slots[0].name {
        var i :| 0 <= i < |slots[1..]| && slots[1..][i].name == n;
        assert slots[i + 1].name == n;
      }
      WalkSlotsOnce(slots[1..], tracked);
      var all := here + rest;
      forall j, k | 0 <= j < k < |all| ensures all[j].path != all[k].path {
        if k >= |here| && j < |here| {
          assert all[j].path[0] == slots[0].name;
          assert all[k] == rest[k - |here|];
        } else if j >= |here| {
          assert all[j] == rest[j - |here|] && all[k] == rest[k - |here|];
        }
      }
    }
  }

  /** `params()` yields exactly one item per tracked leaf: the items are
      the values of the enumeration, each reached by a distinct path, each
      path resolves to its item, and every resolvable path is among them. */
  lemma ParamsAreTrackedLeaves(l: Layer)
    requires Valid(l)
    ensures |Params(l)| == |Walk(l)|
    ensures forall k :: 0 <= k < |Walk(l)| ==> Params(l)[k] == Walk(l)[k].value
    ensures forall k :: 0 <= k < |Walk(l)| ==> Resolve(l, Walk(l)[k].path) == Some(Params(l)[k])
    ensures DistinctPaths(Walk(l))
    ensures forall path, v :: Resolve(l, path) == Some(v) ==> Leaf(path, v) in Walk(l)
    ensures forall k :: 0 <= k < |Params(l)| ==> !Params(l)[k].Sub?
  {
    WalkOnce(l);
    forall k | 0 <= k < |Walk(l)| ensures Resolve(l, Walk(l)[k].path) == Some(Walk(l)[k].value) {
      WalkSound(l, Walk(l)[k]);
    }
    forall path, v | Resolve(l, path) == Some(v) ensures Leaf(path, v) in Walk(l) {
      WalkComplete(l, path, v);
    }
  }

  // ---------------------------------------------------------------------
  // Clearing gradients
  // ---------------------------------------------------------------------

  /** `cleargrads()`: call `cleargrad()` on every item `params()` yields.
      A tracked attribute that holds neither a Parameter nor a Layer is a
      value without a `cleargrad` method, and raises AttributeError. */
  function ClearGrads(l: Layer): (r: Result<Layer>)
    decreases l
    ensures r.Ok? ==> r.value.tracked == l.tracked && r.value.record == l.record
    ensures r.Ok? ==> |r.value.slots| == |l.slots|
    ensures r.Ok? ==> forall i :: 0 <= i < |l.slots| ==> r.value.slots[i].name == l.slots[i].name
    ensures r.Ok? ==> forall i :: 0 <= i < |l.slots| && l.slots[i].name !in l.tracked ==> r.value.slots[i] == l.slots[i]
    ensures r.Ok? ==> forall i :: 0 <= i < |l.slots| && l.slots[i].name in l.tracked && l.slots[i].value.Sub? ==>
              ClearGrads(l.slots[i].value.layer).Ok? && r.value.slots[i].value == Sub(ClearGrads(l.slots[i].value.layer).value)
  {
    match ClearSlots(l.slots, l.tracked)
    case Err(e) => Err(e)
    case Ok(s) => Ok(l.(slots := s))
  }

  function ClearSlots(slots: seq<Slot>, tracked: set<string>): (r: Result<seq<Slot>>)
    decreases slots
    ensures r.Ok? ==> |r.value| == |slots|
    ensures r.Ok? ==> forall i :: 0 <= i < |slots| ==> r.value[i].name == slots[i].name
    ensures r.Ok? ==> forall i :: 0 <= i < |slots| && slots[i].name !in tracked ==> r.value[i] == slots[i]
    ensures r.Ok? ==> forall i :: 0 <= i < |slots| && slots[i].name in tracked && slots[i].value.Sub? ==>
              ClearGrads(slots[i].value.layer).Ok? && r.value[i].value == Sub(ClearGrads(slots[i].value.layer).value)
  {
    if slots == [] then Ok([])
    else
      match ClearSlot(slots[0], tracked)
      case Err(e) => Err(e)
      case Ok(s) =>
        match ClearSlots(slots[1..], tracked)
        case Err(e) => Err(e)
        case Ok(rest) => Ok([s] + rest)
  }

  function ClearSlot(s: Slot, tracked: set<string>): (r: Result<Slot>)
    decreases s
    ensures r.Ok? ==> r.value.name == s.name
    ensures s.name !in tracked ==> r == Ok(s)
    ensures r.Ok? && s.name in tracked && s.value.Sub? ==>
              ClearGrads(s.value.layer).Ok? && r.value.value == Sub(ClearGrads(s.value.layer).value)
  {
    if s.name !in tracked then Ok(s)
    else
      match s.value
      case Param(p) => Ok(Slot(s.name, Param(p.ClearGrad())))
      case Sub(sub) =>
        (match ClearGrads(sub)
         case Err(e) => Err(e)
         case Ok(sub') => Ok(Slot(s.name, Sub(sub'))))
      case _ => Err(AttributeError)
  }

  /** What clearing does to one enumerated item. */
  function ClearLeaf(x: Leaf): (y: Leaf)
  {
    if x.value.Param? then Leaf(x.path, Param(x.value.p.ClearGrad())) else x
  }

  function ClearAll(w: seq<Leaf>): (r: seq<Leaf>)
    ensures |r| == |w|
  {
    seq(|w|, k requires 0 <= k < |w| => ClearLeaf(w[k]))
  }

  predicate AllParameters(w: seq<Leaf>)
  {
    forall k :: 0 <= k < |w| ==> w[k].value.Param?
  }

  lemma ClearAllConcat(a: seq<Leaf>, b: seq<Leaf>)
    ensures ClearAll(a + b) == ClearAll(a) + ClearAll(b)
  {
  }

  lemma AllParametersConcat(a: seq<Leaf>, b: seq<Leaf>)
    ensures AllParameters(a + b) <==> AllParameters(a) && AllParameters(b)
  {
    if AllParameters(a + b) {
      forall k | 0 <= k < |a| ensures a[k].value.Param? {
        assert (a + b)[k] == a[k];
      }
      forall k | 0 <= k < |b| ensures b[k].value.Param? {
        assert (a + b)[|a| + k] == b[k];
      }
    } else {
      var k :| 0 <= k < |a + b| && !(a + b)[k].value.Param?;
      if k >= |a| {
        assert (a + b)[k] == b[k - |a|];
      }
    }
  }

  lemma ClearAllPrefix(name: string, w: seq<Leaf>)
    ensures ClearAll(Prefix(name, w)) == Prefix(name, ClearAll(w))
  {
  }

  /** `cleargrads()` succeeds exactly when every item `params()` yields is a
      Parameter, and then it clears the gradient of exactly those items,
      leaving their paths, names and data untouched. */
  lemma {:induction false} ClearGradsClearsParams(l: Layer)
    ensures ClearGrads(l).Ok? <==> AllParameters(Walk(l))
    ensures ClearGrads(l).Ok? ==> Walk(ClearGrads(l).value) == ClearAll(Walk(l))
    decreases l, 2
  {
    ClearSlotsClears(l.slots, l.tracked);
  }

  lemma {:induction false} ClearSlotsClears(slots: seq<Slot>, tracked: set<string>)
    ensures ClearSlots(slots, tracked).Ok? <==> AllParameters(WalkSlots(slots, tracked))
    ensures ClearSlots(slots, tracked).Ok? ==>
              WalkSlots(ClearSlots(slots, tracked).value, tracked) == ClearAll(WalkSlots(slots, tracked))
    decreases slots, 1
  {
    if slots != [] {
      ClearSlotClears(slots[0], tracked);
      ClearSlotsClears(slots[1..], tracked);
      var here := SlotLeaves(slots[0], tracked);
      var rest := WalkSlots(slots[1..], tracked);
      assert WalkSlots(slots, tracked) == here + rest;
      ClearAllConcat(here, rest);
      AllParametersConcat(here, rest);
      var r := ClearSlots(slots, tracked);
      if r.Ok? {
        var s := ClearSlot(slots[0], tracked).value;
        var rs := ClearSlots(slots[1..], tracked).value;
        assert r.value == [s] + rs;
        assert r.value[1..] == rs;
      }
    }
  }

  lemma {:induction false} ClearSlotClears(s: Slot, tracked: set<string>)
    ensures ClearSlot(s, tracked).Ok? <==> AllParameters(SlotLeaves(s, tracked))
    ensures ClearSlot(s, tracked).Ok? ==>
              SlotLeaves(ClearSlot(s, tracked).value, tracked) == ClearAll(SlotLeaves(s, tracked))
    decreases s, 0
  {
    if s.name in tracked {
      match s.value
      case Sub(sub) =>
        ClearGradsClearsParams(sub);
        ClearAllPrefix(s.name, Walk(sub));
        var w := Walk(sub);
        if !AllParameters(w) {
          var k :| 0 <= k < |w| && !w[k].value.Param?;
          assert !Prefix(s.name, w)[k].value.Param?;
        }
      case Param(p) =>
        var c := Slot(s.name, Param(p.ClearGrad()));
        assert ClearSlot(s, tracked) == Ok(c);
        assert SlotLeaves(c, tracked) == [Leaf([s.name], c.value)];
        assert ClearLeaf(Leaf([s.name], s.value)) == Leaf([s.name], c.value);
        assert ClearAll(SlotLeaves(s, tracked)) == [Leaf([s.name], c.value)];
      case _ =>
        assert !SlotLeaves(s, tracked)[0].value.Param?;
    }
  }

  /** Clearing gradients twice is the same as clearing them once. */
  lemma {:induction false} ClearGradsIdempotent(l: Layer)
    requires ClearGrads(l).Ok?
    ensures ClearGrads(ClearGrads(l).value) == ClearGrads(l)
    decreases l, 2
  {
    ClearSlotsIdempotent(l.slots, l.tracked);
  }

  lemma {:induction false} ClearSlotsIdempotent(slots: seq<Slot>, tracked: set<string>)
    requires ClearSlots(slots, tracked).Ok?
    ensures ClearSlots(ClearSlots(slots, tracked).value, tracked) == ClearSlots(slots, tracked)
    decreases slots, 1
  {
    if slots != [] {
      var r := ClearSlots(slots, tracked).value;
      ClearSlotIdempotent(slots[0], tracked);
      ClearSlotsIdempotent(slots[1..], tracked);
      assert r[1..] == ClearSlots(slots[1..], tracked).value;
    }
  }

  lemma {:induction false} ClearSlotIdempotent(s: Slot, tracked: set<string>)
    requires ClearSlot(s, tracked).Ok?
    ensures ClearSlot(ClearSlot(s, tracked).value, tracked) == ClearSlot(s, tracked)
    decreases s, 0
  {
    if s.name in tracked && s.value.Sub? {
      ClearGradsIdempotent(s.value.layer);
    }
  }
}

=== FILE: linear.dfy ===
/** `Linear`, `Q_Linear` and `B_Linear`: three layers with one skeleton. The
    weight starts without data unless the input width is given, gets data of
    shape (in_size, out_size) at most once, either in the constructor or in
    the first `forward`, and keeps it from then on. The classes differ only
    in the default of `nobias`, in the operator `forward` delegates to, and
    in the bit width `Q_Linear` stores and passes along. */
module LinearLayers {
  import opened Base
  import opened Tensors
  import opened Calls
  import opened Layers

  /** Which of the three classes, with `Q_Linear`'s bit width. */
  datatype Variant = Dense | Quantized(bitSize: int) | Binary

  /** The state of a Linear-family layer: `in_size`, `out_size`, `W`, `b`
      and the call record (`bit_size` lives in the variant). */
  datatype LinearLayer = LinearLayer(
    variant: Variant,
    inSize: Option<int>,
    outSize: int,
    w: Parameter,
    b: Option<Parameter>,
    record: Record)

  /** The default of `nobias` in each constructor's signature. */
  function DefaultNoBias(v: Variant): (nobias: bool)
  {
    match v
    case Dense => false
    case Quantized(_) => true
    case Binary => true
  }

  /** The `nobias` a constructor acts on: the argument when given, the
      class's default otherwise. */
  function NoBias(v: Variant, nobias: Option<bool>): (effective: bool)
  {
    match nobias
    case Some(nb) => nb
    case None => DefaultNoBias(v)
  }

  /** `_init_W`: `randn(I, Ou) * sqrt(1 / I)`. A negative dimension makes
      `randn` raise ValueError; otherwise `I == 0` makes `1 / I` raise. */
  function InitW(inSize: int, outSize: int): (r: Result<Tensor>)
    ensures r.Ok? <==> inSize > 0 && outSize >= 0
    ensures r.Ok? ==> r.value.shape == [inSize, outSize] && r.value.init == ScaledNormal(inSize)
    ensures r.Err? ==> r.error == (if inSize >= 0 && outSize >= 0 then ZeroDivision else ValueError)
  {
    if inSize < 0 || outSize < 0 then Err(ValueError)
    else if inSize == 0 then Err(ZeroDivision)
    else Ok(Tensor([inSize, outSize], ScaledNormal(inSize)))
  }

  /** The zero bias `Parameter(np.zeros(out_size), name='b')`. */
  function ZeroBias(outSize: nat): (b: Parameter)
  {
    Parameter("b", Some(Tensor([outSize], Zeros)), None)
  }

  /** The constructors of the three classes. `W` starts as
      `Parameter(None, name='W')` and is initialised at once when `in_size`
      is given; `b` is a zero vector unless `nobias`, in which case it is
      `None`. */
  function New(variant: Variant, outSize: int, nobias: Option<bool>, inSize: Option<int>): (r: Result<LinearLayer>)
    ensures r.Ok? <==>
              && (inSize.Some? ==> inSize.value > 0 && outSize >= 0)
              && (!NoBias(variant, nobias) ==> outSize >= 0)
    ensures r.Ok? ==>
              && r.value.variant == variant && r.value.inSize == inSize && r.value.outSize == outSize
              && r.value.record == NoRecord
              && r.value.w.name == "W" && r.value.w.grad.None?
    ensures r.Ok? ==> (r.value.w.data.None? <==> inSize.None?)
    ensures r.Ok? && inSize.Some? ==>
              r.value.w.data == Some(Tensor([inSize.value, outSize], ScaledNormal(inSize.value)))
    ensures r.Ok? ==> (r.value.b.Some? <==> !NoBias(variant, nobias))
    ensures r.Ok? && r.value.b.Some? ==>
              r.value.b.value.name == "b" && r.value.b.value.grad.None?
              && r.value.b.value.data == Some(Tensor([outSize], Zeros))
  {
    var w0 := Parameter("W", None, None);
    var w: Result<Parameter> :=
      match inSize
      case None => Ok(w0)
      case Some(i) =>
        (match InitW(i, outSize)
         case Err(e) => Err(e)
         case Ok(t) => Ok(w0.(data := Some(t))));
    match w
    case Err(e) => Err(e)
    case Ok(w) =>
      if NoBias(variant, nobias) then Ok(LinearLayer(variant, inSize, outSize, w, None, NoRecord))
      else if outSize < 0 then Err(ValueError)
      else Ok(LinearLayer(variant, inSize, outSize, w, Some(ZeroBias(outSize)), NoRecord))
  }

  /** `Linear(out_size, nobias=False, dtype=np.float32, in_size=None)`:
      a bias unless `nobias` is passed as true. */
  function NewLinear(outSize: int, nobias: Option<bool>, inSize: Option<int>): (r: Result<LinearLayer>)
    ensures r.Ok? ==> r.value.variant == Dense
    ensures nobias.None? && r.Ok? ==>
              outSize >= 0 && r.value.b.Some? && r.value.b.value.data == Some(Tensor([outSize], Zeros))
    ensures nobias.None? && inSize.None? ==> (r.Ok? <==> outSize >= 0)
  {
    New(Dense, outSize, nobias, inSize)
  }

  /** `Q_Linear(out_size, bit_size, nobias=True, dtype=np.float32,
      in_size=None)`: no bias unless `nobias` is passed as false, and the bit
      width stored as given. */
  function NewQLinear(outSize: int, bitSize: int, nobias: Option<bool>, inSize: Option<int>): (r: Result<LinearLayer>)
    ensures r.Ok? ==> r.value.variant == Quantized(bitSize)
    ensures nobias.None? ==> (r.Ok? <==> (inSize.Some? ==> inSize.value > 0 && outSize >= 0))
    ensures nobias.None? && r.Ok? ==> r.value.b.None?
  {
    New(Quantized(bitSize), outSize, nobias, inSize)
  }

  /** `B_Linear(out_size, nobias=True, dtype=np.float32, in_size=None)`: no
      bias unless `nobias` is passed as false. */
  function NewBLinear(outSize: int, nobias: Option<bool>, inSize: Option<int>): (r: Result<LinearLayer>)
    ensures r.Ok? ==> r.value.variant == Binary
    ensures nobias.None? ==> (r.Ok? <==> (inSize.Some? ==> inSize.value > 0 && outSize >= 0))
    ensures nobias.None? && r.Ok? ==> r.value.b.None?
  {
    New(Binary, outSize, nobias, inSize)
  }

  /** The shape invariant of the family: once the weight has data it has
      shape (in_size, out_size) for a positive `in_size`, and a bias, when
      there is one, has length `out_size`. */
  predicate Consistent(lin: LinearLayer)
  {
    && (lin.w.data.Some? ==>
          && lin.inSize.Some? && lin.inSize.value > 0 && lin.outSize >= 0
          && lin.w.data.value.shape == [lin.inSize.value, lin.outSize])
    && (lin.b.Some? ==>
          lin.outSize >= 0 && lin.b.value.data.Some? && lin.b.value.data.value.shape == [lin.outSize])
  }

  /** Every successfully constructed layer is consistent. */
  lemma NewConsistent(variant: Variant, outSize: int, nobias: Option<bool>, inSize: Option<int>)
    requires New(variant, outSize, nobias, inSize).Ok?
    ensures Consistent(New(variant, outSize, nobias, inSize).value)
  {
  }

  /** A call of one of the external operators, as the layer makes it. */
  datatype OperatorCall =
    | FLinear(x: Obj, w: Parameter, b: Option<Parameter>)                 // `F.linear(x, W, b)`
    | FQLinear(x: Obj, w: Parameter, bitSize: int, b: Option<Parameter>)  // `F.q_linear(x, W, bit_size, b)`
    | FBLinear(x: Obj, w: Parameter, b: Option<Parameter>)                // `F.b_linear(x, W, b)`

  /** The operator call each class's `forward` makes with its current
      state. */
  function OperatorFor(lin: LinearLayer, x: Obj): (c: OperatorCall)
    ensures c.x == x && c.w == lin.w && c.b == lin.b
    ensures c.FLinear? <==> lin.variant.Dense?
    ensures c.FBLinear? <==> lin.variant.Binary?
    ensures c.FQLinear? <==> lin.variant.Quantized?
    ensures c.FQLinear? ==> c.bitSize == lin.variant.bitSize
  {
    match lin.variant
    case Dense => FLinear(x, lin.w, lin.b)
    case Quantized(k) => FQLinear(x, lin.w, k, lin.b)
    case Binary => FBLinear(x, lin.w, lin.b)
  }

  /** `forward(x)` up to the operator call: if the weight has no data, take
      `in_size` from `x.shape[1]` and initialise the weight, then make the
      operator call. `in_size` is assigned before `_init_W` runs, so a
      failing initialisation leaves it set while the weight stays without
      data. */
  function Forward(lin: LinearLayer, x: Obj): (r: (LinearLayer, Result<OperatorCall>))
    ensures lin.w.data.Some? ==> r == (lin, Ok(OperatorFor(lin, x)))
    ensures r.0.variant == lin.variant && r.0.outSize == lin.outSize
    ensures r.0.b == lin.b && r.0.record == lin.record
    ensures r.0.w.name == lin.w.name && r.0.w.grad == lin.w.grad
    ensures r.1.Ok? ==> r.0.w.data.Some? && r.1.value == OperatorFor(r.0, x)
    ensures r.1.Err? ==> r.0.w == lin.w
    ensures r.1.Ok? <==>
              || lin.w.data.Some?
              || (x.Var? && |x.shape| >= 2 && x.shape[1] > 0 && lin.outSize >= 0)
    ensures lin.w.data.None? && r.1.Ok? ==>
              && r.0.inSize == Some(x.shape[1] as int)
              && r.0.w.data == Some(Tensor([x.shape[1], lin.outSize], ScaledNormal(x.shape[1])))
    ensures lin.w.data.None? && x.Var? && |x.shape| >= 2 ==> r.0.inSize == Some(x.shape[1] as int)
    ensures lin.w.data.None? && x.Prim? ==> r == (lin, Err(AttributeError))
    ensures lin.w.data.None? && x.Var? && |x.shape| < 2 ==> r == (lin, Err(IndexError))
    ensures lin.w.data.None? && x.Var? && |x.shape| >= 2 && InitW(x.shape[1], lin.outSize).Err? ==>
              r.1 == Err(InitW(x.shape[1], lin.outSize).error)
  {
    if lin.w.data.Some? then (lin, Ok(OperatorFor(lin, x)))
    else
      match x
      case Prim(_) => (lin, Err(AttributeError))
      case Var(_, shape) =>
        if |shape| < 2 then (lin, Err(IndexError))
        else
          var lin1 := lin.(inSize := Some(shape[1] as int));
          match InitW(shape[1], lin.outSize)
          case Err(e) => (lin1, Err(e))
          case Ok(t) =>
            var lin2 := lin1.(w := lin1.w.(data := Some(t)));
            (lin2, Ok(OperatorFor(lin2, x)))
  }

  /** `forward` keeps the shape invariant. */
  lemma ForwardConsistent(lin: LinearLayer, x: Obj)
    requires Consistent(lin)
    ensures Consistent(Forward(lin, x).0)
  {
  }

  /** The external operators, through the one behaviour the layer relies on:
      they accept a 2-D input whose feature width equals the weight's row
      count and return a fresh (batch, out) array, and fail with
      ShapeMismatch otherwise. `outId` is the identity of the new array. */
  function Apply(c: OperatorCall, outId: nat): (r: Result<Obj>)
  {
    if c.x.Var? && |c.x.shape| == 2 && c.w.data.Some? && |c.w.data.value.shape| == 2
       && c.x.shape[1] == c.w.data.value.shape[0]
    then Ok(Var(outId, [c.x.shape[0], c.w.data.value.shape[1]]))
    else Err(ShapeMismatch)
  }

  /** `layer(*args)`: `__call__` around the class's `forward`. `forward`
      takes exactly one argument; any other count is a TypeError before
      anything changes. `outId` is the identity the operator gives its
      result. */
  function Call(lin: LinearLayer, args: seq<Obj>, outId: nat): (r: (LinearLayer, Result<Returned>))
    ensures r.0.variant == lin.variant && r.0.outSize == lin.outSize && r.0.b == lin.b
    ensures |args| != 1 ==> r == (lin, Err(TypeError))
    ensures r.1.Err? ==> r.0 == (if |args| == 1 then Forward(lin, args[0]).0 else lin)
    ensures |args| == 1 && Forward(lin, args[0]).1.Err? ==>
              r == (Forward(lin, args[0]).0, Err(Forward(lin, args[0]).1.error))
    ensures lin.w.data.Some? ==> r.0.w == lin.w && r.0.inSize == lin.inSize
    ensures Consistent(lin) ==> Consistent(r.0)
    ensures r.1.Ok? ==> |args| == 1 && args[0].Var? && |args[0].shape| == 2
    ensures r.1.Ok? ==> r.0.w.data.Some? && |r.0.w.data.value.shape| == 2
    ensures r.1.Ok? ==> r.1.value == Single(Var(outId, [args[0].shape[0], r.0.w.data.value.shape[1]]))
    ensures r.1.Ok? ==> r.0.record == Record(Some([Ref(args[0].id)]), Some([Ref(outId)]))
    ensures Consistent(lin) && r.1.Ok? ==> r.1.value.value.shape == [args[0].shape[0], r.0.outSize]
    ensures Consistent(lin) && |args| == 1 && args[0].Var? && |args[0].shape| == 2 ==>
              (r.1.Ok? <==> r.0.w.data.Some? && r.0.inSize == Some(args[0].shape[1] as int))
  {
    if |args| != 1 then (lin, Err(TypeError))
    else
      var (lin1, op) := Forward(lin, args[0]);
      var fwd: Result<Returned> :=
        match op
        case Err(e) => Err(e)
        case Ok(c) =>
          (match Apply(c, outId)
           case Err(e) => Err(e)
           case Ok(y) => RefsToOne(y); Ok(Single(y)));
      ForwardConsistentIf(lin, args[0]);
      assert args == [args[0]];
      RefsToOne(args[0]);
      var (rec, out) := Invoke(lin1.record, args, fwd);
      (lin1.(record := rec), out)
  }

  /** `ForwardConsistent` without its precondition, so that the body of
      `Call`, which holds for inconsistent layers too, can use it. */
  lemma ForwardConsistentIf(lin: LinearLayer, x: Obj)
    ensures Consistent(lin) ==> Consistent(Forward(lin, x).0)
  {
  }

  /** A sequence of calls, each with its arguments and the identity of the
      array its operator returns. */
  datatype Step = Step(args: seq<Obj>, outId: nat)

  function Run(lin: LinearLayer, steps: seq<Step>): (r: LinearLayer)
    decreases |steps|
  {
    if steps == [] then lin else Run(Call(lin, steps[0].args, steps[0].outId).0, steps[1..])
  }

  /** Once the weight has data, no sequence of calls changes it or
      `in_size`; the class, `out_size`, `b` and `bit_size` never change. */
  lemma {:induction false} InitialisedStaysFixed(lin: LinearLayer, steps: seq<Step>)
    ensures Run(lin, steps).variant == lin.variant
    ensures Run(lin, steps).outSize == lin.outSize && Run(lin, steps).b == lin.b
    ensures lin.w.data.Some? ==> Run(lin, steps).w == lin.w && Run(lin, steps).inSize == lin.inSize
    decreases |steps|
  {
    if steps != [] {
      InitialisedStaysFixed(Call(lin, steps[0].args, steps[0].outId).0, steps[1..]);
    }
  }

  /** Once any call has succeeded, the weight has data for good. */
  lemma {:induction false} InitialisedAfterSuccess(lin: LinearLayer, steps: seq<Step>, k: nat)
    requires k < |steps|
    requires Call(Run(lin, steps[..k]), steps[k].args, steps[k].outId).1.Ok?
    ensures Run(lin, steps).w.data.Some?
    decreases |steps|
  {
    var lin1 := Call(lin, steps[0].args, steps[0].outId).0;
    if k == 0 {
      assert steps[..0] == [];
      InitialisedStaysFixed(lin1, steps[1..]);
    } else {
      assert steps[1..][..k - 1] == steps[1..k];
      assert Run(lin, steps[..k]) == Run(lin1, steps[1..k]) by {
        assert steps[..k][0] == steps[0];
        assert steps[..k][1..] == steps[1..k];
      }
      assert steps[1..][k - 1] == steps[k];
      InitialisedAfterSuccess(lin1, steps[1..], k - 1);
    }
  }

  /** Every reachable state is consistent. */
  lemma {:induction false} RunConsistent(lin: LinearLayer, steps: seq<Step>)
    requires Consistent(lin)
    ensures Consistent(Run(lin, steps))
    decreases |steps|
  {
    if steps != [] {
      RunConsistent(Call(lin, steps[0].args, steps[0].outId).0, steps[1..]);
    }
  }

  /** `Q_Linear` hands the bit width it was constructed with to the
      quantised operator on every call, however many calls came before. */
  lemma {:induction false} BitSizeOnEveryCall(lin: LinearLayer, steps: seq<Step>, x: Obj)
    requires lin.variant.Quantized?
    ensures var (_, op) := Forward(Run(lin, steps), x);
            op.Ok? ==> op.value.FQLinear? && op.value.bitSize == lin.variant.bitSize
  {
    InitialisedStaysFixed(lin, steps);
  }

  /** A layer constructed without `in_size` fixes its weight from the first
      2-D input; a later input of another width reaches the operator with the
      old weight and fails there with ShapeMismatch. */
  lemma LaterWidthMismatch(variant: Variant, outSize: nat, nobias: Option<bool>, x1: Obj, x2: Obj, id1: nat, id2: nat)
    requires x1.Var? && |x1.shape| == 2 && x1.shape[1] > 0
    requires x2.Var? && |x2.shape| == 2 && x2.shape[1] != x1.shape[1]
    ensures New(variant, outSize, nobias, None).Ok?
    ensures var (lin1, y1) := Call(New(variant, outSize, nobias, None).value, [x1], id1);
            && y1 == Ok(Single(Var(id1, [x1.shape[0], outSize])))
            && lin1.w.data == Some(Tensor([x1.shape[1], outSize], ScaledNormal(x1.shape[1])))
            && Call(lin1, [x2], id2).1 == Err(ShapeMismatch)
  {
    var lin0 := New(variant, outSize, nobias, None).value;
    NewConsistent(variant, outSize, nobias, None);
    var (lin1, y1) := Call(lin0, [x1], id1);
    var (l1, op1) := Forward(lin0, x1);
    assert Apply(op1.value, id1).Ok?;
    var (l2, op2) := Forward(lin1, x2);
    assert l2 == lin1;
    assert !Apply(op2.value, id2).Ok?;
  }

  // ---------------------------------------------------------------------
  // The same layer, seen through the `Layer` base class
  // ---------------------------------------------------------------------

  /** The attribute stores each constructor makes, in order, rewritten with
      the layer's current values (`forward` re-assigns `in_size`, which keeps
      its place in the dictionary; `W` is changed in place). */
  function Stores(lin: LinearLayer): (ops: seq<Assign>)
  {
    Config(lin) + WeightStores(lin)
  }

  /** The stores of everything but the parameters. */
  function Config(lin: LinearLayer): (ops: seq<Assign>)
  {
    [ Assign("in_size", match lin.inSize case None => NoneValue case Some(i) => Int(i)),
      Assign("out_size", Int(lin.outSize)) ]
    + (match lin.variant case Quantized(k) => [Assign("bit_size", Int(k))] case _ => [])
    + [ Assign("dtype", Other("float32")) ]
  }

  /** The stores of `W` and `b`; `b` is `None` when there is no bias. */
  function WeightStores(lin: LinearLayer): (ops: seq<Assign>)
  {
    [ Assign("W", Param(lin.w)),
      Assign("b", match lin.b case None => NoneValue case Some(p) => Param(p)) ]
  }

  /** The layer as the base class sees it. */
  function AsLayer(lin: LinearLayer): (l: Layer)
  {
    SetAll(Empty, Stores(lin)).(record := lin.record)
  }

  /** The values the base class's enumeration yields for this family. */
  function OwnParams(lin: LinearLayer): (ps: seq<Value>)
  {
    [Param(lin.w)] + (match lin.b case None => [] case Some(p) => [Param(p)])
  }

  lemma {:induction false} SetAllValid(l: Layer, ops: seq<Assign>)
    requires Valid(l)
    requires forall k :: 0 <= k < |ops| ==> !ops[k].value.Sub?
    ensures Valid(SetAll(l, ops))
    decreases |ops|
  {
    if ops != [] {
      SetAttrValid(l, ops[0].name, ops[0].value);
      SetAllValid(SetAttr(l, ops[0].name, ops[0].value), ops[1..]);
    }
  }

  lemma ConfigUntracked(lin: LinearLayer)
    ensures forall k :: 0 <= k < |Config(lin)| ==>
              Config(lin)[k].name !in {"W", "b"} && !Trackable(Config(lin)[k].value)
    ensures forall j, k :: 0 <= j < k < |Stores(lin)| ==> Stores(lin)[j].name != Stores(lin)[k].name
    ensures Fresh(Stores(lin), Names(Empty.slots))
  {
  }

  lemma StoresTracked(lin: LinearLayer)
    ensures TrackedNames(Stores(lin)) == {"W"} + (if lin.b.Some? then {"b"} else {})
  {
    ConfigUntracked(lin);
    TrackedNamesConcat(Config(lin), WeightStores(lin));
    assert TrackedNames(Config(lin)) == {};
    var ws := WeightStores(lin);
    assert ws[0].name == "W" && ws[1].name == "b";
    assert TrackedNames(ws) == {"W"} + (if lin.b.Some? then {"b"} else {});
  }

  /** The dictionary and tracked set a Linear-family constructor builds. */
  lemma AsLayerShape(lin: LinearLayer)
    ensures AsLayer(lin).slots == AsSlots(Config(lin)) + AsSlots(WeightStores(lin))
    ensures AsLayer(lin).tracked == {"W"} + (if lin.b.Some? then {"b"} else {})
  {
    ConfigUntracked(lin);
    SetAllNew(Empty, Stores(lin));
    AsSlotsConcat(Config(lin), WeightStores(lin));
    StoresTracked(lin);
  }

  /** Seen through the base class, a Linear-family layer tracks `W`, and
      `b` exactly when the bias exists; `params()` yields `W` and, if there
      is one, the bias, each once and in an unspecified order; and the
      layer invariant holds. */
  lemma AsLayerTracksWeights(lin: LinearLayer)
    ensures Valid(AsLayer(lin))
    ensures AsLayer(lin).tracked == {"W"} + (if lin.b.Some? then {"b"} else {})
    ensures multiset(Params(AsLayer(lin))) == multiset(OwnParams(lin))
  {
    AsLayerValid(lin);
    AsLayerShape(lin);
    AsLayerParams(lin);
  }

  lemma AsLayerValid(lin: LinearLayer)
    ensures Valid(AsLayer(lin))
  {
    ConfigUntracked(lin);
    SetAllValid(Empty, Stores(lin));
  }

  lemma AsLayerParams(lin: LinearLayer)
    ensures Params(AsLayer(lin)) == OwnParams(lin)
  {
    AsLayerWalk(lin);
  }

  lemma AsLayerWalk(lin: LinearLayer)
    ensures Walk(AsLayer(lin)) == OwnLeaves(lin)
  {
    AsLayerShape(lin);
    WalkOwn(lin, AsLayer(lin).tracked);
  }

  /** Behind the configuration attributes, which are never tracked, the
      enumeration meets `W` and then `b`. */
  lemma WalkOwn(lin: LinearLayer, tracked: set<string>)
    requires "W" in tracked && ("b" in tracked <==> lin.b.Some?)
    requires tracked <= {"W", "b"}
    ensures WalkSlots(AsSlots(Config(lin)) + AsSlots(WeightStores(lin)), tracked) == OwnLeaves(lin)
  {
    var pre := AsSlots(Config(lin));
    ConfigUntracked(lin);
    WalkSlotsConcat(pre, AsSlots(WeightStores(lin)), tracked);
    WalkSlotsSkips(pre, tracked);
    WalkWeights(lin, tracked);
  }

  /** The leaves `W` and `b` contribute, in dictionary order. */
  function OwnLeaves(lin: LinearLayer): (w: seq<Leaf>)
  {
    [Leaf(["W"], Param(lin.w))] + (match lin.b case None => [] case Some(p) => [Leaf(["b"], Param(p))])
  }

  lemma WalkWeights(lin: LinearLayer, tracked: set<string>)
    requires "W" in tracked && ("b" in tracked <==> lin.b.Some?)
    ensures WalkSlots(AsSlots(WeightStores(lin)), tracked) == OwnLeaves(lin)
  {
    var ws := AsSlots(WeightStores(lin));
    assert ws == [ws[0]] + [ws[1]];
    WalkSlotsConcat([ws[0]], [ws[1]], tracked);
    WalkSlotsOne(ws[0], tracked);
    WalkSlotsOne(ws[1], tracked);
  }

  /** `cleargrads()` on a Linear-family layer succeeds and yields the weight
      and the bias, if any, with their gradients cleared and their data
      kept. */
  lemma ClearGradsOfLinear(lin: LinearLayer)
    ensures ClearGrads(AsLayer(lin)).Ok?
    ensures multiset(Params(ClearGrads(AsLayer(lin)).value)) ==
              multiset([Param(lin.w.ClearGrad())] + (match lin.b case None => [] case Some(p) => [Param(p.ClearGrad())]))
  {
    var l := AsLayer(lin);
    AsLayerWalk(lin);
    ClearGradsClearsParams(l);
    ClearOwnLeaves(lin);
    assert Params(ClearGrads(l).value) ==
             [Param(lin.w.ClearGrad())] + (match lin.b case None => [] case Some(p) => [Param(p.ClearGrad())]);
  }

  /** Clearing the leaves of `W` and `b` clears both parameters. */
  lemma ClearOwnLeaves(lin: LinearLayer)
    ensures AllParameters(OwnLeaves(lin))
    ensures ClearAll(OwnLeaves(lin)) ==
              [Leaf(["W"], Param(lin.w.ClearGrad()))] + (match lin.b case None => [] case Some(p) => [Leaf(["b"], Param(p.ClearGrad()))])
  {
  }
}

=== FILE: scenarios.dfy ===
/** Worked instances of the behaviour the model promises, on small layers
    built the way the classes build them. */
module Scenarios {
  import opened Base
  import opened Tensors
  import opened Calls
  import opened Layers
  import opened LinearLayers

  lemma OneParameter(pc: Parameter)
    ensures Walk(SetAttr(Empty, "w", Param(pc))) == [Leaf(["w"], Param(pc))]
  {
    var child := SetAttr(Empty, "w", Param(pc));
    assert child.slots == [Slot("w", Param(pc))];
    WalkSlotsOne(Slot("w", Param(pc)), child.tracked);
  }

  /** A layer storing Parameters under `a` and `b` and, under `c`, a
      sub-layer that stores one Parameter enumerates exactly those three
      Parameters, whatever the order. */
  lemma ThreeParameters(pa: Parameter, pb: Parameter, pc: Parameter)
    ensures var child := SetAttr(Empty, "w", Param(pc));
            var l := SetAll(Empty, [Assign("a", Param(pa)), Assign("b", Param(pb)), Assign("c", Sub(child))]);
            multiset(Params(l)) == multiset{Param(pa), Param(pb), Param(pc)}
  {
    var child := SetAttr(Empty, "w", Param(pc));
    var l := SetAll(Empty, [Assign("a", Param(pa)), Assign("b", Param(pb)), Assign("c", Sub(child))]);
    ThreeStores(pa, pb, child);
    ThreeWalk(pa, pb, pc);
    assert Walk(l) == [Leaf(["a"], Param(pa)), Leaf(["b"], Param(pb)), Leaf(["c", "w"], Param(pc))];
    assert Params(l) == [Param(pa), Param(pb), Param(pc)];
  }

  /** The three stores build a dictionary of three entries, all tracked. */
  lemma ThreeStores(pa: Parameter, pb: Parameter, child: Layer)
    ensures SetAll(Empty, [Assign("a", Param(pa)), Assign("b", Param(pb)), Assign("c", Sub(child))])
            == Layer([Slot("a", Param(pa)), Slot("b", Param(pb)), Slot("c", Sub(child))], {"a", "b", "c"}, Empty.record)
  {
    var ops := [Assign("a", Param(pa)), Assign("b", Param(pb)), Assign("c", Sub(child))];
    SetAllNew(Empty, ops);
    assert TrackedNames(ops) == {"a", "b", "c"} by {
      assert ops[0].name == "a" && ops[1].name == "b" && ops[2].name == "c";
    }
  }

  lemma ThreeWalk(pa: Parameter, pb: Parameter, pc: Parameter)
    ensures var child := SetAttr(Empty, "w", Param(pc));
            Walk(Layer([Slot("a", Param(pa)), Slot("b", Param(pb)), Slot("c", Sub(child))], {"a", "b", "c"}, Empty.record))
            == [Leaf(["a"], Param(pa)), Leaf(["b"], Param(pb)), Leaf(["c", "w"], Param(pc))]
  {
    var child := SetAttr(Empty, "w", Param(pc));
    var tracked := {"a", "b", "c"};
    var sa, sb, sc := Slot("a", Param(pa)), Slot("b", Param(pb)), Slot("c", Sub(child));
    assert [sa, sb, sc] == [sa] + ([sb] + [sc]);
    WalkSlotsConcat([sa], [sb] + [sc], tracked);
    WalkSlotsConcat([sb], [sc], tracked);
    WalkSlotsOne(sa, tracked);
    WalkSlotsOne(sb, tracked);
    WalkSlotsOne(sc, tracked);
    OneParameter(pc);
    assert Prefix("c", Walk(child))[0] == Leaf(["c"] + ["w"], Param(pc));
    assert ["c"] + ["w"] == ["c", "w"];
  }

  /** `Q_Linear(4, bit_size=2)` and `B_Linear(4)` have no bias by default;
      `Linear(4)` has a zero bias of length 4. */
  lemma DefaultBiases()
    ensures NewQLinear(4, 2, None, None).Ok? && NewQLinear(4, 2, None, None).value.b.None?
    ensures NewBLinear(4, None, None).Ok? && NewBLinear(4, None, None).value.b.None?
    ensures NewLinear(4, None, None).Ok?
    ensures NewLinear(4, None, None).value.b == Some(Parameter("b", Some(Tensor([4], Zeros)), None))
  {
  }

  /** A first input of width zero sets `in_size` to zero, and the weight
      initialisation then fails on `1 / 0`. */
  lemma ZeroWidthFirstInput(lin: LinearLayer)
    requires lin.w.data.None? && lin.outSize >= 0
    ensures Forward(lin, Var(0, [3, 0])).1 == Err(ZeroDivision)
    ensures Forward(lin, Var(0, [3, 0])).0.inSize == Some(0)
  {
  }

  /** An empty tuple from `forward` is recorded before `outputs[0]` fails. */
  lemma EmptyResultStillRecorded(rec: Record)
    ensures Invoke(rec, [Var(0, [1])], Ok(Tuple([]))) == (Record(Some([Ref(0)]), Some([])), Err(IndexError))
  {
    RefsToOne(Var(0, [1]));
  }

  /** A primitive argument cannot be weakly referenced: the call raises
      before any part of the record is written. */
  lemma UnreferenceableArgument(rec: Record)
    ensures Invoke(rec, [Prim(0)], Ok(Single(Var(1, [1])))) == (rec, Err(TypeError))
  {
  }

  /** A primitive result cannot be weakly referenced: the call raises after
      the new inputs were written next to the old outputs. */
  lemma UnreferenceableResult(rec: Record)
    ensures Invoke(rec, [Var(0, [1])], Ok(Single(Prim(1)))) == (Record(Some([Ref(0)]), rec.outputs), Err(TypeError))
  {
    RefsToOne(Var(0, [1]));
  }

  /** Before the weight exists, a 1-D input fails in `forward` with
      IndexError, and `layer(x)` leaves the layer as it was. */
  lemma OneDimensionalFirstInput(lin: LinearLayer)
    requires lin.w.data.None?
    ensures Call(lin, [Var(0, [3])], 7) == (lin, Err(IndexError))
  {
  }

  /** Once the weight exists, a failing `layer(x)`, the operator's
      ShapeMismatch included, leaves the whole layer as it was. */
  lemma FailedCallKeepsLayer(lin: LinearLayer, x: Obj, id: nat)
    requires lin.w.data.Some?
    ensures Call(lin, [x], id).1.Err? ==> Call(lin, [x], id).0 == lin
  {
  }

  /** Clearing gradients keeps a tracked sub-layer's own tracked set, record
      and untracked attributes. */
  lemma ClearKeepsChild(l: Layer, i: nat, j: nat)
    requires ClearGrads(l).Ok?
    requires i < |l.slots| && l.slots[i].name in l.tracked && l.slots[i].value.Sub?
    requires j < |l.slots[i].value.layer.slots| && l.slots[i].value.layer.slots[j].name !in l.slots[i].value.layer.tracked
    ensures ClearGrads(l).value.slots[i].value.Sub?
    ensures ClearGrads(l).value.slots[i].value.layer.tracked == l.slots[i].value.layer.tracked
    ensures ClearGrads(l).value.slots[i].value.layer.record == l.slots[i].value.layer.record
    ensures ClearGrads(l).value.slots[i].value.layer.slots[j] == l.slots[i].value.layer.slots[j]
  {
  }
}

=== FILE: tensors.dfy ===
/** The collaborators the layer code consumes: arrays, parameters and the
    arguments handed to a layer call. Numbers are abstracted away; what is
    kept is shape, how an array was initialised, and object identity. */
module Tensors {
  import opened Base

  /** How the content of an array came to be. */
  datatype Init =
    | Zeros                      // `np.zeros(...)`
    | ScaledNormal(fanIn: int)   // `randn(...) * sqrt(1 / fanIn)`
    | Given                      // any other content

  /** An array, reduced to its shape and its initialiser. */
  datatype Tensor = Tensor(shape: seq<nat>, init: Init)

  /** A trainable parameter: a name, optional data and an optional gradient. */
  datatype Parameter = Parameter(name: string, data: Option<Tensor>, grad: Option<Tensor>)
  {
    /** `Parameter.cleargrad()`: drop the gradient, keep everything else. */
    function ClearGrad(): (p: Parameter)
      ensures p.grad.None?
      ensures p.name == name && p.data == data
    {
      this.(grad := None)
    }
  }

  /** A value passed to or returned from a layer call. `Var` stands for an
      array or graph variable (it has a shape and can be weakly referenced);
      `Prim` for a primitive such as an `int`, which cannot. */
  datatype Obj = Var(id: nat, shape: seq<nat>) | Prim(v: int)

  /** A non-owning reference; it remembers only which object it points at. */
  datatype Ref = Ref(target: nat)
}
